=== FILE: README.md ===
# Touchy file chooser and program listing

A Dafny model of the two paged widgets of Touchy, the touch-screen front end
of the machine controller. The **file chooser** shows the entries of the
`nc_files` directory a page at a time and lets the operator select one. A
selection puts the machine in MDI mode, tells it to open the file, and hands
the same path to the **program listing**. The listing shows that file's lines
a page at a time, with trailing whitespace stripped. Both widgets share one
piece of offset arithmetic. Paging up subtracts a page and clamps at 0.
Paging down adds a page with no upper limit, so it can reach an all-blank page
past the end.

Each widget is an immutable record with pure transition functions. Screen
output is a pure `Render` function: slot texts, plus one highlight flag per
slot for the chooser. Effects on the machine are returned as a sequence of
`Command` values.

Modules:

- `Wrappers` holds `Option` for reads the model does not perform, and `Outcome` / `IoError` for the errors that propagate. `IoError` names the Python exceptions: `OSError` from `dircache.listdir`, `IOError` from `file(fn, 'r')`.
- `PySlice` holds Python's `xs[lo:]` and `xs[lo:hi]`, including how negative and out-of-range bounds are normalised.
- `Text` holds Python 2 `str.rstrip()` and a two-part POSIX `os.path.join`.
- `Paging` holds the shared offset arithmetic: `Up`, `Down`, the reachable offsets (`Aligned`), and their laws.
- `Listing` is the program listing (`listing.py`).
- `FileChooser` is the file chooser (`filechooser.py`).
- `Touchy` puts both widgets behind one event type. It proves invariants over arbitrary event runs and properties of the command trace. It also works through two concrete walkthroughs.

Three behaviours of the code the model keeps:

- `readfile` records the file name before it opens the file. A failed read therefore leaves the new name with the old program and offset.
- `select` builds the path from the text the slot shows, not from the list entry. Selecting a blank slot therefore opens the directory itself joined with `""`. The model covers this case instead of ruling it out.
- Offsets are integers. Populate reads its window through Python slices, so `Render` is defined even for a negative offset, with Python's wrap-around. No reachable state has one.

## Model

| member | source | states |
|---|---|---|
| PySlice.From | src/emc/usr_intf/touchy/filechooser.py:33 | `files[off:]` is a suffix of the list. For a non-negative offset its i-th element is `files[off+i]`, and its length is what remains past `off`, or 0. For a negative offset it is the last `-off` entries. |
| PySlice.Slice | src/emc/usr_intf/touchy/listing.py:29 | `program[lo:lo+n]` is a contiguous run of the list starting at the normalised lower bound. For a non-negative `lo` its elements are `program[lo+i]`, and its length is clamped to the list's end. |
| Text.RStrip | src/emc/usr_intf/touchy/listing.py:34 | `rstrip()` returns a prefix of its input that does not end in whitespace. Everything it removed is whitespace. |
| Text.RStripFixpoint | src/emc/usr_intf/touchy/listing.py:34 | Stripping leaves a string unchanged exactly when it has no trailing whitespace. Stripping twice equals stripping once. |
| Text.RStripDropsWhitespace | src/emc/usr_intf/touchy/listing.py:34 | For a string with no trailing whitespace, stripping it with any run of whitespace appended gives the string back. |
| Text.StripDropsNewline | src/emc/usr_intf/touchy/listing.py:34 | The newline `readlines()` leaves on a line is removed by the strip. |
| Text.Join | src/emc/usr_intf/touchy/filechooser.py:50 | The joined path ends with the file name. It starts with the directory unless the name is absolute. |
| Paging.Down | src/emc/usr_intf/touchy/filechooser.py:61-63 | Paging down never lowers the offset, and paging up undoes it from any non-negative offset. Related laws: `DownsAdd` (k pages down move the offset by exactly k pages), `UpsAfterDowns` (k pages up undo them), `DownKeepsAligned` (it keeps offsets reachable). |
| Paging.Up | src/emc/usr_intf/touchy/filechooser.py:55-59 | Paging up gives `max(0, offset - size)`: it is never negative, never below `offset - size`, and is either 0 or exactly one page lower. |
| Paging.UpKeepsAligned | src/emc/usr_intf/touchy/listing.py:42-46 | Paging up from a reachable offset (a non-negative multiple of the page size) gives a reachable offset. |
| Paging.DownKeepsAligned | src/emc/usr_intf/touchy/listing.py:48-50 | Paging down from a reachable offset gives a reachable offset. |
| Paging.AlignedIsPageMultiple | src/emc/usr_intf/touchy/filechooser.py:26 | The reachable offsets are exactly those that some number of pages down from the initial 0 produces. |
| Paging.AlignedIsMultiple | src/emc/usr_intf/touchy/filechooser.py:55-63 | The reachable offsets are exactly the non-negative multiples of the page size. |
| Paging.DownsAreAligned | src/emc/usr_intf/touchy/filechooser.py:61-63 | Any number of pages down from 0 gives a reachable offset. |
| Paging.UpsStayAtTop | src/emc/usr_intf/touchy/filechooser.py:55-59 | Any number of pages up from offset 0 stays at 0, so paging up at the top is idempotent. |
| Paging.DownsAdd | src/emc/usr_intf/touchy/filechooser.py:61-63 | `k` pages down move the offset by exactly `k` pages, with no upper limit. |
| Paging.UpAfterDown | src/emc/usr_intf/touchy/filechooser.py:55-63 | Down followed by up restores any non-negative offset. |
| Paging.DownAfterUp | src/emc/usr_intf/touchy/filechooser.py:55-63 | Up followed by down restores any offset at least a page from the top. For a reachable offset, that is any offset other than 0. |
| Paging.UpsAfterDowns | src/emc/usr_intf/touchy/filechooser.py:55-63 | `k` pages down followed by `k` pages up restore any non-negative offset. |
| Paging.UpsReachTop | src/emc/usr_intf/touchy/listing.py:42-46 | From an offset of at most `k` pages, `k` pages up reach the top. |
| Listing.Init | src/emc/usr_intf/touchy/listing.py:16-26 | A new viewer is reachable: offset 0, nothing selected, no program, no file name. All its slots are blank. |
| Listing.Render | src/emc/usr_intf/touchy/listing.py:28-40 | Populate fills exactly `numlabels` slots. For a non-negative offset, slot i shows `program[offset+i]` stripped if that line exists, and blank otherwise. No slot text ends in whitespace. Nothing is highlighted. |
| Listing.PageUp | src/emc/usr_intf/touchy/listing.py:42-46 | Up clamps the offset at 0 and otherwise moves it exactly one page up. Program, file name, selection and page size are unchanged. |
| Listing.PageDown | src/emc/usr_intf/touchy/listing.py:48-50 | Down moves the offset exactly one page down, with no upper limit. Nothing else changes. |
| Listing.ReadFile | src/emc/usr_intf/touchy/listing.py:52-58 | The file name is always recorded. A successful read replaces the program with the file's lines and resets the offset to 0. A failed read raises `IOError` and leaves program and offset unchanged. |
| Listing.Reload | src/emc/usr_intf/touchy/listing.py:60-61 | Reload changes nothing: program, offset, file name, selection and page size stay the same. |
| Listing.OperationsKeepValid | src/emc/usr_intf/touchy/listing.py:22-58 | Up, down, reload and readfile all keep the offset a non-negative multiple of the page size. The selection stays -1. |
| Listing.PastEndIsBlank | src/emc/usr_intf/touchy/listing.py:29-36 | Once the offset is at or past the end of the program (`offset >= len(program)`), every slot is blank. |
| Listing.RenderIsPaddedSlice | src/emc/usr_intf/touchy/listing.py:29-36 | The visible window is the stripped slice `program[offset:offset+numlabels]`, followed by blank slots up to `numlabels`. |
| Listing.PageUpAtTop | src/emc/usr_intf/touchy/listing.py:42-46 | At the top, up only normalises the offset to 0. Pressing it again changes nothing. |
| Listing.PageUpAfterPageDown | src/emc/usr_intf/touchy/listing.py:42-50 | Down followed by up restores the whole viewer state. |
| FileChooser.Init | src/emc/usr_intf/touchy/filechooser.py:18-30 | Construction fails exactly when the directory cannot be listed. Otherwise it holds the listing at offset 0 with nothing selected, in a reachable state. |
| FileChooser.Render | src/emc/usr_intf/touchy/filechooser.py:32-44 | Populate fills exactly `numlabels` slots. For a non-negative offset, slot i shows `files[offset+i]` if that entry exists, and blank otherwise. Slot i is highlighted exactly when `selected == offset + i`. |
| FileChooser.PageUp | src/emc/usr_intf/touchy/filechooser.py:55-59 | Up clamps the offset at 0 and otherwise moves it exactly one page up. Entries, selection, directory and page size are unchanged. |
| FileChooser.PageDown | src/emc/usr_intf/touchy/filechooser.py:61-63 | Down moves the offset exactly one page down, with no upper limit. Entries and the absolute selection are unchanged. |
| FileChooser.Reload | src/emc/usr_intf/touchy/filechooser.py:65-68 | A successful listing replaces the entries and clears the selection to -1, keeping the offset. A failed listing raises `OSError` and changes nothing. |
| FileChooser.SlotPath | src/emc/usr_intf/touchy/filechooser.py:50 | The path a slot opens is the directory joined with that slot's entry. For a blank slot it is the directory joined with `""`. |
| FileChooser.Select | src/emc/usr_intf/touchy/filechooser.py:46-53 | Selecting slot `n` sets the selection to `offset + n` and leaves entries and offset unchanged. It issues, in order: MDI mode, open the slot's path, load that same path into the listing. The listing ends up exactly as `readfile` of that path leaves it. Afterwards slot `n` is the only highlighted slot. |
| FileChooser.OperationsKeepValid | src/emc/usr_intf/touchy/filechooser.py:46-68 | Up, down, reload and select all keep the offset a non-negative multiple of the page size. The selection stays -1 or a non-negative index. |
| FileChooser.AtMostOneHighlighted | src/emc/usr_intf/touchy/filechooser.py:41-44 | No two slots are highlighted at once. With nothing selected, no slot is highlighted. |
| FileChooser.HighlightShowsSelection | src/emc/usr_intf/touchy/filechooser.py:41-44 | Some slot is highlighted exactly when the selection lies on the current page. That slot is the one at `selected - offset`. |
| FileChooser.PastEndIsBlank | src/emc/usr_intf/touchy/filechooser.py:33-40 | Once the offset is at or past the end of the list (`offset >= len(files)`), every slot is blank. |
| FileChooser.RenderIsPaddedSlice | src/emc/usr_intf/touchy/filechooser.py:33-40 | The visible texts are the first `numlabels` entries of `files[offset:]`, followed by blank slots up to `numlabels`. |
| FileChooser.PageUpAtTop | src/emc/usr_intf/touchy/filechooser.py:55-59 | At the top, up only normalises the offset to 0. Pressing it again changes nothing. |
| FileChooser.PageUpAfterPageDown | src/emc/usr_intf/touchy/filechooser.py:55-63 | Down followed by up restores the whole chooser state, selection included. |
| Touchy.Start | src/emc/usr_intf/touchy/filechooser.py:26-30 | Start-up fails exactly when the directory cannot be listed. Otherwise the chooser holds the directory's entries at offset 0 with nothing selected. The viewer has no program, offset 0 and an empty file name. Both widgets are reachable and keep the given page sizes. |
| Touchy.Step | src/emc/usr_intf/touchy/filechooser.py:46-68 | Each event acts on its own widget as its handler does. Up clamps the offset at 0 and down adds a page, both keeping entries (or program) and selection. A successful chooser reload replaces the entries and clears the selection at the same offset, and a failed one changes nothing. The listing's reload changes nothing. A selection sets the selection to `offset + slot` and leaves the listing exactly as `readfile` of the slot's path leaves it. Only a selection issues commands: MDI mode, open, and load of the slot's path. Chooser events leave the listing unchanged, and listing events leave the chooser unchanged. No event changes page sizes or the directory. |
| Touchy.SelectionsConcat | src/emc/usr_intf/touchy/filechooser.py:49-52 | Two traces of whole selections, concatenated, form a trace of whole selections. |
| Touchy.StepKeepsInv | src/emc/usr_intf/touchy/filechooser.py:46-68 | Every event keeps both widgets reachable and issues only whole selections. |
| Touchy.RunKeepsInv | src/emc/usr_intf/touchy/filechooser.py:26-68 | From any reachable screen, any run of events keeps both offsets non-negative multiples of their page sizes and the listing unselected. Each machine command belongs to a whole selection: MDI mode, open `p`, load `p`, in that order. |
| Touchy.ListingFollowsLastOpen | src/emc/usr_intf/touchy/filechooser.py:50-52 | After any run that issued commands, the trace ends with open `p` then load `p`, where `p` is the listing's file name: the listing holds the last file the machine was told to open. A run that issued nothing leaves the file name unchanged. |
| Touchy.PagingKeepsSelection | src/emc/usr_intf/touchy/filechooser.py:55-63 | A run of paging events issues no commands. It leaves the chooser's entries and absolute selection, and the listing's program and file name, unchanged. |
| Touchy.ChooserPagingWalkthrough | src/emc/usr_intf/touchy/filechooser.py:32-63 | Three entries on two slots: the first page is `a.ngc, b.ngc`, down shows `c.ngc` and a blank, and up shows the first page again. |
| Touchy.ChooserSelectWalkthrough | src/emc/usr_intf/touchy/filechooser.py:46-53 | Selecting slot 0 of that first page selects entry 0, issues MDI mode, open `/nc/a.ngc` and load `/nc/a.ngc`, and the listing holds the file's lines. |
| Touchy.ListingWalkthrough | src/emc/usr_intf/touchy/listing.py:28-58 | Five lines on three slots: the first page shows lines 1-3 stripped. Down shows lines 4-5 and a blank. Down again shows an all-blank page, and up returns to lines 4-5. |

## Left out

- GTK widgets, colour parsing and `modify_bg`: each slot is modelled as a text plus a highlight flag.
- The constructor arguments `gtk`, `emc`, `labels` and `eventboxes`: only the slot count `len(labels)` is kept. The unused event arguments of the handlers are dropped.
- `os.getenv('HOME')` and the join that builds the `nc_files` directory: the directory is a parameter of `FileChooser.Init`.
- `dircache.listdir`: its result, or its failure, is a parameter. Any ordering or caching it does is not modelled.
- `file(fn)` and `readlines()` in `readfile`: the resulting lines, or the failure to open, are a parameter. How a file is split into lines is not modelled.
- The `emc` command object: `mode(MODE_MDI)` and `program_open` become `Command` values in the returned trace, as does the hand-over to the listing.
- Decoding the slot index from the eventbox name, `get_name()[20:]`: the slot index is a parameter below `numlabels`. The `IndexError` an out-of-range index would raise is not modelled.
- FileChooser.Select: the highlight is derived from state. After a failed read, the source raises before its final `populate`, so the highlight on screen stays stale until the chooser next repaints: its next up, down, or successful reload or select. A failed reload, another failed select and every listing event leave it stale. Slot texts are not affected.
- Text.Join: models POSIX `os.path.join` of two parts only. Other platforms' path rules are not modelled.
- Errors raised by handlers: a handler that raises leaves the changes made before the exception, and the event loop carries on. The model records no error for the event sequence as a whole.
- The program that builds both widgets and wires events to them is not part of this model. `Touchy.Start` assumes the viewer is built before the chooser that feeds it.

=== FILE: filechooser.dfy ===
/** The file chooser: the entries of one directory shown a page at a time,
    with at most one entry selected. Selecting an entry asks the machine to
    switch to MDI mode and open the file, then loads it into the listing
    viewer. */
module FileChooser {
  import opened Wrappers
  import opened Text
  import opened Paging
  import PySlice
  import Listing

  /** The machine mode requested before a program is opened. */
  datatype Mode = Mdi

  /** The effects a selection has outside the chooser, in the order issued:
      the two machine commands, then the hand-over to the listing viewer. */
  datatype Command = SetMode(mode: Mode) | ProgramOpen(path: string) | LoadListing(path: string)

  /** The chooser's state. `dir` is the directory whose entries are listed
      and `numLabels` the number of slots on screen, both fixed when the
      widget is built. `selected` is an absolute index into `files`, or -1. */
  datatype Chooser = Chooser(dir: string, files: seq<string>, fileOffset: int,
                             selected: int, numLabels: nat)

  /** One slot on screen: its text and whether it is highlighted. */
  datatype Slot = Slot(text: string, highlighted: bool)

  /** What a selection produced: the new states of both widgets, the effects
      issued, and whether the listing's read raised. */
  datatype Selection = Selection(chooser: Chooser, viewer: Listing.Viewer,
                                 commands: seq<Command>, outcome: Outcome)

  /** The states the chooser can reach. */
  predicate Valid(c: Chooser)
  {
    Aligned(c.fileOffset, c.numLabels) && c.selected >= -1
  }

  /** Building the chooser: list the directory (`entries`, or `None` when it
      cannot be read, in which case construction raises), start at the top
      with nothing selected. */
  function Init(numLabels: nat, dir: string, entries: Option<seq<string>>): (r: Option<Chooser>)
    ensures r.Some? <==> entries.Some?
    ensures r.Some? ==> Valid(r.value) && r.value.files == entries.value && r.value.dir == dir
                        && r.value.numLabels == numLabels
                        && r.value.fileOffset == 0 && r.value.selected == -1
  {
    match entries
    case None => None
    case Some(files) => Some(Chooser(dir, files, 0, -1, numLabels))
  }

  /** `populate`: the `numLabels` slots, with texts read through the slice
      `files[fileOffset:]` and the slot whose absolute index is `selected`
      highlighted. */
  function Render(c: Chooser): (slots: seq<Slot>)
    ensures |slots| == c.numLabels
    ensures c.fileOffset >= 0 ==>
      forall i :: 0 <= i < |slots| ==> slots[i].text == Entry(c.files, c.fileOffset + i)
    ensures forall i :: 0 <= i < |slots| ==> (slots[i].highlighted <==> c.selected == c.fileOffset + i)
  {
    var shown := PySlice.From(c.files, c.fileOffset);
    seq(c.numLabels, i requires 0 <= i < c.numLabels =>
      Slot(if i < |shown| then shown[i] else "", c.selected == c.fileOffset + i))
  }

  /** `up`: one page towards the top, clamped at entry 0. */
  function PageUp(c: Chooser): (r: Chooser)
    ensures r.fileOffset >= 0 && r.fileOffset >= c.fileOffset - c.numLabels
    ensures r.fileOffset == 0 || r.fileOffset == c.fileOffset - c.numLabels
    ensures r.files == c.files && r.selected == c.selected
    ensures r.dir == c.dir && r.numLabels == c.numLabels
  {
    c.(fileOffset := Up(c.fileOffset, c.numLabels))
  }

  /** `down`: one page further, with no limit at the end of the list. */
  function PageDown(c: Chooser): (r: Chooser)
    ensures r.fileOffset == c.fileOffset + c.numLabels
    ensures r.files == c.files && r.selected == c.selected
    ensures r.dir == c.dir && r.numLabels == c.numLabels
  {
    c.(fileOffset := Down(c.fileOffset, c.numLabels))
  }

  /** `reload`: list the directory again; on success the new entries replace
      the old and the selection is cleared, the offset staying where it was.
      If the directory cannot be read the error propagates before anything
      has changed. */
  function Reload(c: Chooser, entries: Option<seq<string>>): (r: (Chooser, Outcome))
    ensures r.0.fileOffset == c.fileOffset && r.0.dir == c.dir && r.0.numLabels == c.numLabels
    ensures entries.Some? ==> r.1 == Pass && r.0.files == entries.value && r.0.selected == -1
    ensures entries.None? ==> r.1 == Fail(OSError) && r.0 == c
  {
    match entries
    case None => (c, Fail(OSError))
    case Some(files) => (c.(files := files, selected := -1), Pass)
  }

  /** The path a selection of slot `n` opens: the directory joined with the
      text that slot shows (blank text when the slot has no entry). */
  function SlotPath(c: Chooser, n: nat): (path: string)
    requires n < c.numLabels
    ensures c.fileOffset >= 0 && c.fileOffset + n < |c.files| ==>
              path == Join(c.dir, c.files[c.fileOffset + n])
    ensures c.fileOffset >= 0 && c.fileOffset + n >= |c.files| ==> path == Join(c.dir, "")
  {
    Join(c.dir, Render(c)[n].text)
  }

  /** `select` on slot `n`: the absolute index of the slot becomes the
      selection, the machine is put in MDI mode and told to open the slot's
      file, and the listing viewer reads the same file (`contents` is what
      that read returns). */
  function Select(c: Chooser, v: Listing.Viewer, n: nat, contents: Option<seq<string>>): (r: Selection)
    requires n < c.numLabels
    ensures r.chooser.selected == c.fileOffset + n
    ensures r.chooser.files == c.files && r.chooser.fileOffset == c.fileOffset
    ensures r.chooser.dir == c.dir && r.chooser.numLabels == c.numLabels
    ensures var path := SlotPath(c, n);
            && r.commands == [SetMode(Mdi), ProgramOpen(path), LoadListing(path)]
            && (r.viewer, r.outcome) == Listing.ReadFile(v, path, contents)
    ensures Render(r.chooser)[n].highlighted
    ensures forall i :: 0 <= i < c.numLabels && i != n ==> !Render(r.chooser)[i].highlighted
  {
    var chosen := c.(selected := c.fileOffset + n);
    var path := Join(c.dir, Render(c)[n].text);
    var (viewer, outcome) := Listing.ReadFile(v, path, contents);
    Selection(chosen, viewer, [SetMode(Mdi), ProgramOpen(path), LoadListing(path)], outcome)
  }

  /** Every operation keeps the chooser in a reachable state. */
  lemma OperationsKeepValid(c: Chooser, v: Listing.Viewer, n: nat,
                            entries: Option<seq<string>>, contents: Option<seq<string>>)
    requires Valid(c)
    ensures Valid(PageUp(c)) && Valid(PageDown(c)) && Valid(Reload(c, entries).0)
    ensures n < c.numLabels ==> Valid(Select(c, v, n, contents).chooser)
  {
    UpKeepsAligned(c.fileOffset, c.numLabels);
    DownKeepsAligned(c.fileOffset, c.numLabels);
  }

  /** At most one slot is highlighted, and none when nothing is selected. */
  lemma AtMostOneHighlighted(c: Chooser)
    ensures forall i, j :: 0 <= i < j < c.numLabels ==> !(Render(c)[i].highlighted && Render(c)[j].highlighted)
    ensures c.selected == -1 && c.fileOffset >= 0 ==>
              forall i :: 0 <= i < c.numLabels ==> !Render(c)[i].highlighted
  {
  }

  /** The highlighted slot, if any, is the one at `selected - fileOffset`: a
      selection is visible exactly on the page that contains it. */
  lemma HighlightShowsSelection(c: Chooser)
    ensures (exists i :: 0 <= i < c.numLabels && Render(c)[i].highlighted)
            <==> c.fileOffset <= c.selected < c.fileOffset + c.numLabels
    ensures c.fileOffset <= c.selected < c.fileOffset + c.numLabels ==>
              Render(c)[c.selected - c.fileOffset].highlighted
  {
    if c.fileOffset <= c.selected < c.fileOffset + c.numLabels {
      assert Render(c)[c.selected - c.fileOffset].highlighted;
    }
  }

  /** Once the offset is at or past the end of the list, every slot is
      blank. */
  lemma PastEndIsBlank(c: Chooser)
    requires c.fileOffset >= |c.files|
    ensures forall i :: 0 <= i < c.numLabels ==> Render(c)[i].text == ""
  {
  }

  /** The visible window is the slice of the entries, padded with blank slots
      up to the page size. */
  lemma RenderIsPaddedSlice(c: Chooser)
    requires c.fileOffset >= 0
    ensures var n := Shown(|c.files|, c.fileOffset, c.numLabels);
            && (forall i :: 0 <= i < n ==> Render(c)[i].text == c.files[c.fileOffset + i])
            && (forall i :: n <= i < c.numLabels ==> Render(c)[i].text == "")
  {
  }

  /** Page up at the top of the list changes nothing. */
  lemma PageUpAtTop(c: Chooser)
    requires c.fileOffset <= 0
    ensures PageUp(c) == c.(fileOffset := 0)
    ensures PageUp(PageUp(c)) == PageUp(c)
  {
  }

  /** Page down then page up shows the same page again, with the same
      selection. */
  lemma PageUpAfterPageDown(c: Chooser)
    requires c.fileOffset >= 0
    ensures PageUp(PageDown(c)) == c
  {
  }
}

=== FILE: listing.dfy ===
/** The program-listing viewer: the lines of one file shown a page at a
    time, each line with its trailing whitespace stripped. The viewer keeps a
    `selected` field but never changes it and never highlights a line. */
module Listing {
  import opened Wrappers
  import opened Text
  import opened Paging
  import PySlice

  /** The viewer's state. `numLabels` is the number of text slots on screen,
      fixed when the widget is built. */
  datatype Viewer = Viewer(program: seq<string>, lineOffset: int, filename: string,
                           selected: int, numLabels: nat)

  /** The states the viewer can reach. */
  predicate Valid(v: Viewer)
  {
    Aligned(v.lineOffset, v.numLabels) && v.selected == -1
  }

  /** A freshly built viewer: no program, no file, top of the (empty) list. */
  function Init(numLabels: nat): (v: Viewer)
    ensures Valid(v) && v.numLabels == numLabels
    ensures v.lineOffset == 0 && v.selected == -1
    ensures v.program == [] && v.filename == ""
    ensures forall i :: 0 <= i < |Render(v)| ==> Render(v)[i] == ""
  {
    Viewer([], 0, "", -1, numLabels)
  }

  /** `populate`: the text of each of the `numLabels` slots, read through the
      slice `program[lineOffset:lineOffset + numLabels]`. */
  function Render(v: Viewer): (slots: seq<string>)
    ensures |slots| == v.numLabels
    ensures v.lineOffset >= 0 ==>
      forall i :: 0 <= i < |slots| ==> slots[i] == RStrip(Entry(v.program, v.lineOffset + i))
    ensures forall i :: 0 <= i < |slots| ==> NoTrailingSpace(slots[i])
  {
    var shown := PySlice.Slice(v.program, v.lineOffset, v.lineOffset + v.numLabels);
    seq(v.numLabels, i requires 0 <= i < v.numLabels =>
      if i < |shown| then RStrip(shown[i]) else "")
  }

  /** `up`: one page towards the top, clamped at line 0. */
  function PageUp(v: Viewer): (r: Viewer)
    ensures r.lineOffset >= 0 && r.lineOffset >= v.lineOffset - v.numLabels
    ensures r.lineOffset == 0 || r.lineOffset == v.lineOffset - v.numLabels
    ensures r.program == v.program && r.filename == v.filename
    ensures r.selected == v.selected && r.numLabels == v.numLabels
  {
    v.(lineOffset := Up(v.lineOffset, v.numLabels))
  }

  /** `down`: one page further, with no limit at the end of the program. */
  function PageDown(v: Viewer): (r: Viewer)
    ensures r.lineOffset == v.lineOffset + v.numLabels
    ensures r.program == v.program && r.filename == v.filename
    ensures r.selected == v.selected && r.numLabels == v.numLabels
  {
    v.(lineOffset := Down(v.lineOffset, v.numLabels))
  }

  /** `readfile(fn)`: the file name is recorded first; if the file can be read
      (`contents` is its `readlines()`), its lines replace the program and the
      view returns to the top, otherwise the error propagates and nothing else
      has changed. */
  function ReadFile(v: Viewer, fn: string, contents: Option<seq<string>>): (r: (Viewer, Outcome))
    ensures r.0.filename == fn
    ensures r.0.selected == v.selected && r.0.numLabels == v.numLabels
    ensures contents.Some? ==> r.1 == Pass && r.0.program == contents.value && r.0.lineOffset == 0
    ensures contents.None? ==>
              r.1 == Fail(IOError) && r.0.program == v.program && r.0.lineOffset == v.lineOffset
  {
    var named := v.(filename := fn);
    match contents
    case None => (named, Fail(IOError))
    case Some(lines) => (named.(program := lines, lineOffset := 0), Pass)
  }

  /** `reload`: does nothing. */
  function Reload(v: Viewer): (r: Viewer)
    ensures r.program == v.program && r.lineOffset == v.lineOffset
    ensures r.filename == v.filename && r.selected == v.selected && r.numLabels == v.numLabels
  {
    v
  }

  /** Every operation keeps the viewer in a reachable state: the offset stays
      a non-negative multiple of the page size and nothing is ever selected. */
  lemma OperationsKeepValid(v: Viewer, fn: string, contents: Option<seq<string>>)
    requires Valid(v)
    ensures Valid(PageUp(v)) && Valid(PageDown(v)) && Valid(Reload(v))
    ensures Valid(ReadFile(v, fn, contents).0)
  {
    UpKeepsAligned(v.lineOffset, v.numLabels);
    DownKeepsAligned(v.lineOffset, v.numLabels);
  }

  /** Once the offset is at or past the end of the program, every slot is
      blank. */
  lemma PastEndIsBlank(v: Viewer)
    requires v.lineOffset >= |v.program|
    ensures forall i :: 0 <= i < |Render(v)| ==> Render(v)[i] == ""
  {
  }

  /** The visible window is the stripped slice of the program, padded with
      blank slots up to the page size. */
  lemma RenderIsPaddedSlice(v: Viewer)
    requires v.lineOffset >= 0
    ensures var n := Shown(|v.program|, v.lineOffset, v.numLabels);
            && (forall i :: 0 <= i < n ==> Render(v)[i] == RStrip(v.program[v.lineOffset + i]))
            && (forall i :: n <= i < v.numLabels ==> Render(v)[i] == "")
  {
  }

  /** Page up at the top of the listing changes nothing. */
  lemma PageUpAtTop(v: Viewer)
    requires v.lineOffset <= 0
    ensures PageUp(v) == v.(lineOffset := 0)
    ensures PageUp(PageUp(v)) == PageUp(v)
  {
  }

  /** Page down then page up shows the same page again. */
  lemma PageUpAfterPageDown(v: Viewer)
    requires v.lineOffset >= 0
    ensures PageUp(PageDown(v)) == v
  {
  }
}

=== FILE: paging.dfy ===
/** The offset arithmetic both widgets share: a window of `size` slots over a
    list, moved one page at a time. Going up clamps at the top of the list;
    going down has no limit and may leave the window past the end. */
module Paging {

  /** What a slot shows for absolute list index `k`: the entry when it exists,
      otherwise blank text. */
  function Entry(xs: seq<string>, k: int): string
  {
    if 0 <= k < |xs| then xs[k] else ""
  }

  /** How many slots of a page of `size` at `offset` show an entry of a list
      of length `len`; the rest are blank. */
  function Shown(len: nat, offset: int, size: nat): nat
  {
    if offset < len then (if len - offset < size then len - offset else size) else 0
  }

  /** The offsets both widgets can reach: 0, or a whole page below another
      such offset. (With an empty page that leaves only 0.) */
  predicate Aligned(offset: int, size: nat)
    decreases if offset > 0 then offset else 0
  {
    offset == 0 || (size > 0 && offset >= size && Aligned(offset - size, size))
  }

  /** One page up: subtract a page, then clamp at 0. */
  function Up(offset: int, size: nat): (r: int)
    ensures r >= 0 && r >= offset - size
    ensures r == 0 || r == offset - size
  {
    var o := offset - size;
    if o < 0 then 0 else o
  }

  /** One page down: add a page, with no upper limit. */
  function Down(offset: int, size: nat): (r: int)
    ensures r >= offset
    ensures offset >= 0 ==> Up(r, size) == offset
  {
    offset + size
  }

  /** `k` pages up in a row. */
  function Ups(offset: int, size: nat, k: nat): int
    decreases k
  {
    if k == 0 then offset else Ups(Up(offset, size), size, k - 1)
  }

  /** `k` pages down in a row. */
  function Downs(offset: int, size: nat, k: nat): int
    decreases k
  {
    if k == 0 then offset else Down(Downs(offset, size, k - 1), size)
  }

  /** Paging up keeps a reachable offset reachable. */
  lemma UpKeepsAligned(offset: int, size: nat)
    requires Aligned(offset, size)
    ensures Aligned(Up(offset, size), size)
  {
    if offset != 0 {
      assert Aligned(offset - size, size);
    }
  }

  /** Paging down keeps a reachable offset reachable. */
  lemma DownKeepsAligned(offset: int, size: nat)
    requires Aligned(offset, size)
    ensures Aligned(Down(offset, size), size)
  {
    if size > 0 {
      assert Aligned(offset + size - size, size);
    }
  }

  /** Any number of pages up from offset 0 stays at 0: repeated presses at
      the top change nothing. */
  lemma {:induction false} UpsStayAtTop(size: nat, k: nat)
    ensures Ups(0, size, k) == 0
    decreases k
  {
    if k > 0 {
      UpsStayAtTop(size, k - 1);
    }
  }

  /** `k` pages down moves the offset by exactly `k` pages. */
  lemma {:induction false} DownsAdd(offset: int, size: nat, k: nat)
    ensures Downs(offset, size, k) == offset + k * size
    decreases k
  {
    if k > 0 {
      DownsAdd(offset, size, k - 1);
    }
  }

  /** Down then up restores a non-negative offset. */
  lemma UpAfterDown(offset: int, size: nat)
    requires offset >= 0
    ensures Up(Down(offset, size), size) == offset
  {
  }

  /** Up then down restores any offset that was at least a page from the
      top (for a reachable offset, any offset other than 0). */
  lemma DownAfterUp(offset: int, size: nat)
    requires offset >= size
    ensures Down(Up(offset, size), size) == offset
  {
  }

  /** `k` pages down followed by `k` pages up returns to the starting offset. */
  lemma {:induction false} UpsAfterDowns(offset: int, size: nat, k: nat)
    requires offset >= 0
    ensures Ups(Downs(offset, size, k), size, k) == offset
    decreases k
  {
    if k > 0 {
      DownsAdd(offset, size, k - 1);
      assert Ups(Downs(offset, size, k), size, k) == Ups(Downs(offset, size, k - 1), size, k - 1);
      UpsAfterDowns(offset, size, k - 1);
    }
  }

  /** Enough pages up always reach the top. */
  lemma {:induction false} UpsReachTop(offset: int, size: nat, k: nat)
    requires 0 <= offset <= k * size
    ensures Ups(offset, size, k) == 0
    decreases k
  {
    if k > 0 {
      var o := Up(offset, size);
      assert o <= (k - 1) * size;
      UpsReachTop(o, size, k - 1);
    }
  }

  /** The reachable offsets are exactly those that some number of pages down
      from 0 produces. */
  lemma {:induction false} AlignedIsPageMultiple(offset: int, size: nat)
    ensures Aligned(offset, size) <==> exists k: nat :: Downs(0, size, k) == offset
    decreases if offset > 0 then offset else 0
  {
    if Aligned(offset, size) {
      if offset == 0 {
        assert Downs(0, size, 0) == offset;
      } else {
        AlignedIsPageMultiple(offset - size, size);
        var k: nat :| Downs(0, size, k) == offset - size;
        assert Downs(0, size, k + 1) == offset;
      }
    }
    if exists k: nat :: Downs(0, size, k) == offset {
      var k: nat :| Downs(0, size, k) == offset;
      DownsAreAligned(size, k);
    }
  }

  /** The reachable offsets are exactly the non-negative multiples of the
      page size. */
  lemma AlignedIsMultiple(offset: int, size: nat)
    ensures Aligned(offset, size) <==> exists k: nat :: offset == k * size
  {
    AlignedIsPageMultiple(offset, size);
    if Aligned(offset, size) {
      var k: nat :| Downs(0, size, k) == offset;
      DownsAdd(0, size, k);
      assert offset == k * size;
    }
    if exists k: nat :: offset == k * size {
      var k: nat :| offset == k * size;
      DownsAdd(0, size, k);
      assert Downs(0, size, k) == offset;
    }
  }

  /** Any number of pages down from 0 gives a reachable offset. */
  lemma {:induction false} DownsAreAligned(size: nat, k: nat)
    ensures Aligned(Downs(0, size, k), size)
    decreases k
  {
    if k > 0 {
      DownsAreAligned(size, k - 1);
      DownKeepsAligned(Downs(0, size, k - 1), size);
    }
  }
}

=== FILE: pyslice.dfy ===
/** Python's slice expressions `xs[lo:]` and `xs[lo:hi]` on lists, including
    the wrap-around of negative bounds and the clamping of bounds that lie
    beyond either end. Both widgets read their visible window through one of
    these. */
module PySlice {

  /** Python's normalisation of one slice bound against a list of length `len`:
      a negative bound counts from the end, and the result is clamped into
      `0..len`. */
  function Bound(i: int, len: nat): nat
  {
    if i < 0 then (if i + len < 0 then 0 else i + len)
    else if i > len then len
    else i
  }

  /** `xs[lo:]` */
  function From<T>(xs: seq<T>, lo: int): (r: seq<T>)
    ensures |r| <= |xs|
    ensures r == xs[|xs| - |r|..]
    ensures 0 <= lo ==> |r| == (if lo < |xs| then |xs| - lo else 0)
    ensures 0 <= lo ==> forall i :: 0 <= i < |r| ==> r[i] == xs[lo + i]
    ensures lo < 0 ==> |r| == (if -lo < |xs| then -lo else |xs|)
  {
    xs[Bound(lo, |xs|)..]
  }

  /** `xs[lo:hi]` */
  function Slice<T>(xs: seq<T>, lo: int, hi: int): (r: seq<T>)
    ensures |r| <= |xs|
    ensures Bound(lo, |xs|) + |r| <= |xs| && r == xs[Bound(lo, |xs|)..Bound(lo, |xs|) + |r|]
    ensures 0 <= lo <= hi ==> |r| == (if lo < hi && lo < |xs| then (if hi < |xs| then hi else |xs|) - lo else 0)
    ensures 0 <= lo ==> forall i :: 0 <= i < |r| ==> r[i] == xs[lo + i]
  {
    var a := Bound(lo, |xs|);
    var b := Bound(hi, |xs|);
    if a < b then xs[a..b] else []
  }
}

=== FILE: text.dfy ===
/** The two string operations the widgets use: Python 2's `str.rstrip()` with
    no argument, and a two-component POSIX `os.path.join`. */
module Text {

  /** The characters Python 2 treats as whitespace in a byte string. */
  predicate IsSpace(c: char)
  {
    c == ' ' || c == '\t' || c == '\n' || c == '\r' || c == '\U{0B}' || c == '\U{0C}'
  }

  /** A string that does not end in whitespace (the empty string included). */
  predicate NoTrailingSpace(s: string)
  {
    |s| == 0 || !IsSpace(s[|s| - 1])
  }

  /** `s.rstrip()`: the longest prefix of `s` that does not end in whitespace. */
  function RStrip(s: string): (r: string)
    ensures r <= s
    ensures NoTrailingSpace(r)
    ensures forall i :: |r| <= i < |s| ==> IsSpace(s[i])
  {
    if |s| == 0 || !IsSpace(s[|s| - 1]) then s else RStrip(s[..|s| - 1])
  }

  /** Stripping is a no-op on a string that does not end in whitespace, so in
      particular stripping twice is stripping once. */
  lemma {:induction false} RStripFixpoint(s: string)
    ensures NoTrailingSpace(s) <==> RStrip(s) == s
    ensures RStrip(RStrip(s)) == RStrip(s)
  {
  }

  /** The newline `readlines()` keeps at the end of each line is among what
      stripping removes. */
  lemma StripDropsNewline(s: string)
    ensures RStrip(s + "\n") == RStrip(s)
  {
    assert (s + "\n")[..|s|] == s;
  }

  /** Stripping removes exactly a trailing run of whitespace from a string
      that does not itself end in whitespace. */
  lemma {:induction false} RStripDropsWhitespace(s: string, w: string)
    requires NoTrailingSpace(s)
    requires forall i :: 0 <= i < |w| ==> IsSpace(w[i])
    ensures RStrip(s + w) == s
    decreases |w|
  {
    if |w| == 0 {
      assert s + w == s;
    } else {
      var w' := w[..|w| - 1];
      assert (s + w)[..|s + w| - 1] == s + w';
      RStripDropsWhitespace(s, w');
    }
  }

  /** `os.path.join(a, b)` on POSIX: an absolute `b` replaces `a`; otherwise
      a separator is inserted unless `a` is empty or already ends in one. */
  function Join(a: string, b: string): (r: string)
    ensures |b| <= |r| && r[|r| - |b|..] == b
    ensures (|b| == 0 || b[0] != '/') ==> a <= r
  {
    if |b| > 0 && b[0] == '/' then b
    else if |a| == 0 || a[|a| - 1] == '/' then a + b
    else a + "/" + b
  }
}

=== FILE: touchy.dfy ===
/** The two widgets side by side, driven by the events the host interface
    raises, with every effect on the machine collected into one trace. */
module Touchy {
  import opened Wrappers
  import Text
  import Paging
  import Listing
  import FileChooser

  /** Both widgets' states. */
  datatype Screen = Screen(chooser: FileChooser.Chooser, viewer: Listing.Viewer)

  /** The events the host interface delivers. Reads the model does not
      perform travel with the event that triggers them: the directory listing
      for a chooser reload, the file's lines for a selection. */
  datatype Event =
    | ChooserUp
    | ChooserDown
    | ChooserReload(entries: Option<seq<string>>)
    | ChooserSelect(slot: nat, contents: Option<seq<string>>)
    | ListingUp
    | ListingDown
    | ListingReload

  /** The events the chooser's slots can raise: a selection names one of its
      slots. */
  predicate Fits(e: Event, numLabels: nat)
  {
    e.ChooserSelect? ==> e.slot < numLabels
  }

  /** Every event of a run fits the chooser's slots. */
  predicate AllFit(es: seq<Event>, numLabels: nat)
  {
    forall i :: 0 <= i < |es| ==> Fits(es[i], numLabels)
  }

  /** The states both widgets can reach. */
  predicate Inv(s: Screen)
  {
    FileChooser.Valid(s.chooser) && Listing.Valid(s.viewer)
  }

  /** Building both widgets: the viewer first, then the chooser that feeds
      it. Fails when the chooser's directory cannot be listed. */
  function Start(chooserLabels: nat, viewerLabels: nat, dir: string,
                 entries: Option<seq<string>>): (r: Option<Screen>)
    ensures r.Some? <==> entries.Some?
    ensures r.Some? ==> Inv(r.value) && r.value.chooser.files == entries.value && r.value.chooser.dir == dir
                        && r.value.chooser.fileOffset == 0 && r.value.chooser.selected == -1
                        && r.value.chooser.numLabels == chooserLabels && r.value.viewer.numLabels == viewerLabels
                        && r.value.viewer.program == [] && r.value.viewer.lineOffset == 0
                        && r.value.viewer.filename == ""
  {
    match FileChooser.Init(chooserLabels, dir, entries)
    case None => None
    case Some(c) => Some(Screen(c, Listing.Init(viewerLabels)))
  }

  /** One event: the new screen and the effects it issued. Each event acts on
      its own widget as the matching handler does and leaves the other widget
      alone. An event whose read fails still leaves the changes made before
      the failure. */
  function Step(s: Screen, e: Event): (r: (Screen, seq<FileChooser.Command>))
    requires Fits(e, s.chooser.numLabels)
    ensures r.0.chooser.numLabels == s.chooser.numLabels && r.0.chooser.dir == s.chooser.dir
    ensures r.0.viewer.numLabels == s.viewer.numLabels
    ensures !e.ChooserSelect? ==> r.1 == [] && r.0.viewer.filename == s.viewer.filename
    ensures (e.ChooserUp? || e.ChooserDown? || e.ChooserReload?) ==> r.0.viewer == s.viewer
    ensures (e.ListingUp? || e.ListingDown? || e.ListingReload?) ==> r.0.chooser == s.chooser
    ensures e.ChooserUp? ==>
              && r.0.chooser.fileOffset == Paging.Up(s.chooser.fileOffset, s.chooser.numLabels)
              && r.0.chooser.files == s.chooser.files && r.0.chooser.selected == s.chooser.selected
    ensures e.ChooserDown? ==>
              && r.0.chooser.fileOffset == s.chooser.fileOffset + s.chooser.numLabels
              && r.0.chooser.files == s.chooser.files && r.0.chooser.selected == s.chooser.selected
    ensures e.ChooserReload? && e.entries.Some? ==>
              && r.0.chooser.files == e.entries.value && r.0.chooser.selected == -1
              && r.0.chooser.fileOffset == s.chooser.fileOffset
    ensures e.ChooserReload? && e.entries.None? ==> r.0.chooser == s.chooser
    ensures e.ListingUp? ==>
              && r.0.viewer.lineOffset == Paging.Up(s.viewer.lineOffset, s.viewer.numLabels)
              && r.0.viewer.program == s.viewer.program && r.0.viewer.selected == s.viewer.selected
    ensures e.ListingDown? ==>
              && r.0.viewer.lineOffset == s.viewer.lineOffset + s.viewer.numLabels
              && r.0.viewer.program == s.viewer.program && r.0.viewer.selected == s.viewer.selected
    ensures e.ListingReload? ==> r.0.viewer == s.viewer
    ensures e.ChooserSelect? ==>
              && r.0.chooser.selected == s.chooser.fileOffset + e.slot
              && r.0.chooser.files == s.chooser.files && r.0.chooser.fileOffset == s.chooser.fileOffset
              && r.0.viewer == Listing.ReadFile(s.viewer, FileChooser.SlotPath(s.chooser, e.slot), e.contents).0
    ensures e.ChooserSelect? ==>
              var path := FileChooser.SlotPath(s.chooser, e.slot);
              && r.1 == [FileChooser.SetMode(FileChooser.Mdi), FileChooser.ProgramOpen(path), FileChooser.LoadListing(path)]
              && r.0.viewer.filename == path
  {
    match e
    case ChooserUp => (s.(chooser := FileChooser.PageUp(s.chooser)), [])
    case ChooserDown => (s.(chooser := FileChooser.PageDown(s.chooser)), [])
    case ChooserReload(entries) => (s.(chooser := FileChooser.Reload(s.chooser, entries).0), [])
    case ChooserSelect(n, contents) =>
      var sel := FileChooser.Select(s.chooser, s.viewer, n, contents);
      (Screen(sel.chooser, sel.viewer), sel.commands)
    case ListingUp => (s.(viewer := Listing.PageUp(s.viewer)), [])
    case ListingDown => (s.(viewer := Listing.PageDown(s.viewer)), [])
    case ListingReload => (s.(viewer := Listing.Reload(s.viewer)), [])
  }

  /** A sequence of events, one after the other, with the effects they issued
      in order. */
  function Run(s: Screen, es: seq<Event>): (r: (Screen, seq<FileChooser.Command>))
    requires AllFit(es, s.chooser.numLabels)
    ensures r.0.chooser.numLabels == s.chooser.numLabels && r.0.chooser.dir == s.chooser.dir
    ensures r.0.viewer.numLabels == s.viewer.numLabels
    decreases |es|
  {
    if es == [] then (s, [])
    else
      var (s1, c1) := Step(s, es[0]);
      var (s2, c2) := Run(s1, es[1..]);
      (s2, c1 + c2)
  }

  /** A trace made of whole selections: each is "MDI mode, open `p`, load `p`
      into the listing" for one path `p`. */
  predicate Selections(t: seq<FileChooser.Command>)
    decreases |t|
  {
    |t| == 0 ||
    (|t| >= 3 && t[0] == FileChooser.SetMode(FileChooser.Mdi) && t[1].ProgramOpen?
     && t[2] == FileChooser.LoadListing(t[1].path) && Selections(t[3..]))
  }

  /** Whole selections followed by whole selections are whole selections. */
  lemma {:induction false} SelectionsConcat(a: seq<FileChooser.Command>, b: seq<FileChooser.Command>)
    requires Selections(a) && Selections(b)
    ensures Selections(a + b)
    decreases |a|
  {
    if |a| > 0 {
      SelectionsConcat(a[3..], b);
      assert (a + b)[3..] == a[3..] + b;
      assert (a + b)[0] == a[0] && (a + b)[1] == a[1] && (a + b)[2] == a[2];
    } else {
      assert a + b == b;
    }
  }

  /** Dropping the first event of a run keeps the rest fitting. */
  lemma AllFitTail(es: seq<Event>, numLabels: nat)
    requires es != [] && AllFit(es, numLabels)
    ensures AllFit(es[1..], numLabels)
  {
    forall i | 0 <= i < |es[1..]|
      ensures Fits(es[1..][i], numLabels)
    {
      assert es[1..][i] == es[i + 1];
    }
  }

  /** Every event keeps both widgets in a reachable state. */
  lemma StepKeepsInv(s: Screen, e: Event)
    requires Inv(s) && Fits(e, s.chooser.numLabels)
    ensures Inv(Step(s, e).0)
    ensures Selections(Step(s, e).1)
  {
    match e
    case ChooserReload(entries) =>
      FileChooser.OperationsKeepValid(s.chooser, s.viewer, 0, entries, None);
    case ChooserSelect(n, contents) =>
      FileChooser.OperationsKeepValid(s.chooser, s.viewer, n, None, contents);
      Listing.OperationsKeepValid(s.viewer, FileChooser.SlotPath(s.chooser, n), contents);
      var t := Step(s, e).1;
      assert Selections(t[3..]);
    case _ =>
      FileChooser.OperationsKeepValid(s.chooser, s.viewer, 0, None, None);
      Listing.OperationsKeepValid(s.viewer, "", None);
  }

  /** From any reachable screen, any sequence of events keeps both offsets
      non-negative multiples of their page sizes, keeps the viewer unselected,
      and issues its machine commands only as whole selections, in order. */
  lemma {:induction false} RunKeepsInv(s: Screen, es: seq<Event>)
    requires Inv(s) && AllFit(es, s.chooser.numLabels)
    ensures Inv(Run(s, es).0)
    ensures Selections(Run(s, es).1)
    decreases |es|
  {
    if es != [] {
      StepKeepsInv(s, es[0]);
      var (s1, c1) := Step(s, es[0]);
      AllFitTail(es, s1.chooser.numLabels);
      RunKeepsInv(s1, es[1..]);
      SelectionsConcat(c1, Run(s1, es[1..]).1);
    }
  }

  /** A trace that ends by opening `p` on the machine and loading `p` into
      the listing. */
  predicate EndsWithOpen(t: seq<FileChooser.Command>, p: string)
  {
    |t| >= 3 && t[|t| - 2] == FileChooser.ProgramOpen(p) && t[|t| - 1] == FileChooser.LoadListing(p)
  }

  /** Issuing more commands before a trace keeps what it ends with. */
  lemma EndsWithOpenAfter(a: seq<FileChooser.Command>, b: seq<FileChooser.Command>, p: string)
    requires EndsWithOpen(b, p)
    ensures EndsWithOpen(a + b, p)
  {
    var t := a + b;
    assert t[|t| - 1] == b[|b| - 1] && t[|t| - 2] == b[|b| - 2];
  }

  /** One event: it issues nothing and keeps the listing's file, or it ends
      by opening the listing's new file. */
  lemma StepFollowsOpen(s: Screen, e: Event)
    requires Fits(e, s.chooser.numLabels)
    ensures var (r, t) := Step(s, e);
            || (t == [] && r.viewer.filename == s.viewer.filename)
            || EndsWithOpen(t, r.viewer.filename)
  {
  }

  /** The viewer always holds the file the machine was last told to open:
      a run that issued anything ends with "open `p`, load `p`" for the
      viewer's file `p`; a run that issued nothing leaves the viewer's file
      as it was. */
  lemma {:induction false} ListingFollowsLastOpen(s: Screen, es: seq<Event>)
    requires AllFit(es, s.chooser.numLabels)
    ensures var (r, t) := Run(s, es);
            && (|t| == 0 ==> r.viewer.filename == s.viewer.filename)
            && (|t| > 0 ==> |t| >= 3 && t[|t| - 2] == FileChooser.ProgramOpen(r.viewer.filename)
                                     && t[|t| - 1] == FileChooser.LoadListing(r.viewer.filename))
    decreases |es|
  {
    if es != [] {
      var step := Step(s, es[0]);
      StepFollowsOpen(s, es[0]);
      AllFitTail(es, step.0.chooser.numLabels);
      ListingFollowsLastOpen(step.0, es[1..]);
      var rest := Run(step.0, es[1..]);
      RunCons(s, es);
      if |rest.1| == 0 {
        assert step.1 + rest.1 == step.1;
      } else {
        EndsWithOpenAfter(step.1, rest.1, rest.0.viewer.filename);
      }
    }
  }

  /** How a non-empty run splits into its first event and the rest. */
  lemma RunCons(s: Screen, es: seq<Event>)
    requires es != [] && AllFit(es, s.chooser.numLabels)
    ensures Fits(es[0], s.chooser.numLabels)
    ensures AllFit(es[1..], Step(s, es[0]).0.chooser.numLabels)
    ensures Run(s, es) == (Run(Step(s, es[0]).0, es[1..]).0,
                           Step(s, es[0]).1 + Run(Step(s, es[0]).0, es[1..]).1)
  {
    AllFitTail(es, s.chooser.numLabels);
  }

  /** Events that only move a window (either widget up or down, or the
      viewer's reload). */
  predicate PageOnly(e: Event)
  {
    e.ChooserUp? || e.ChooserDown? || e.ListingUp? || e.ListingDown? || e.ListingReload?
  }

  /** A run of such events issues nothing and leaves the chooser's entries
      and absolute selection, and the viewer's program, as they were: the
      selection survives paging. */
  lemma {:induction false} PagingKeepsSelection(s: Screen, es: seq<Event>)
    requires forall i :: 0 <= i < |es| ==> PageOnly(es[i])
    ensures AllFit(es, s.chooser.numLabels)
    ensures var (r, t) := Run(s, es);
            && t == [] && r.chooser.selected == s.chooser.selected && r.chooser.files == s.chooser.files
            && r.viewer.program == s.viewer.program && r.viewer.filename == s.viewer.filename
    decreases |es|
  {
    if es != [] {
      var s1 := Step(s, es[0]).0;
      PagingKeepsSelection(s1, es[1..]);
    }
  }

  /** The slot texts alone. */
  function Texts(slots: seq<FileChooser.Slot>): seq<string>
  {
    seq(|slots|, i requires 0 <= i < |slots| => slots[i].text)
  }

  /** Three entries on two slots: down shows the last entry and a blank, up
      returns to the first page. */
  lemma ChooserPagingWalkthrough()
    ensures var c := FileChooser.Init(2, "/nc", Some(["a.ngc", "b.ngc", "c.ngc"])).value;
            && Texts(FileChooser.Render(c)) == ["a.ngc", "b.ngc"]
            && Texts(FileChooser.Render(FileChooser.PageDown(c))) == ["c.ngc", ""]
            && Texts(FileChooser.Render(FileChooser.PageUp(FileChooser.PageDown(c)))) == ["a.ngc", "b.ngc"]
  {
    var c := FileChooser.Init(2, "/nc", Some(["a.ngc", "b.ngc", "c.ngc"])).value;
    assert FileChooser.PageUp(FileChooser.PageDown(c)) == c;
  }

  /** Selecting the first slot of that first page selects entry 0, asks the
      machine for MDI mode and to open `/nc/a.ngc`, and loads the same file
      into the viewer. */
  lemma ChooserSelectWalkthrough(v: Listing.Viewer, lines: seq<string>)
    ensures var c := FileChooser.Init(2, "/nc", Some(["a.ngc", "b.ngc", "c.ngc"])).value;
            var sel := FileChooser.Select(c, v, 0, Some(lines));
            && sel.chooser.selected == 0
            && sel.commands == [FileChooser.SetMode(FileChooser.Mdi), FileChooser.ProgramOpen("/nc/a.ngc"),
                                FileChooser.LoadListing("/nc/a.ngc")]
            && sel.viewer.program == lines && sel.viewer.filename == "/nc/a.ngc"
  {
    var c := FileChooser.Init(2, "/nc", Some(["a.ngc", "b.ngc", "c.ngc"])).value;
    assert c.fileOffset == 0 && c.files[0] == "a.ngc";
    assert Text.Join("/nc", "a.ngc") == "/nc/a.ngc";
    assert FileChooser.SlotPath(c, 0) == "/nc/a.ngc";
  }

  /** The five lines used below, as `readlines()` returns them. */
  function FiveLines(): seq<string>
  {
    ["g0 x1\n", "g1 y2 \n", "m3\n", "g2\t\n", "m2\n"]
  }

  /** What stripping makes of each of the five lines. */
  lemma FiveLinesStripped()
    ensures Text.RStrip(FiveLines()[0]) == "g0 x1" && Text.RStrip(FiveLines()[1]) == "g1 y2"
    ensures Text.RStrip(FiveLines()[2]) == "m3" && Text.RStrip(FiveLines()[3]) == "g2"
    ensures Text.RStrip(FiveLines()[4]) == "m2"
  {
    assert FiveLines()[0] == "g0 x1" + "\n";
    Text.RStripDropsWhitespace("g0 x1", "\n");
    assert FiveLines()[1] == "g1 y2" + " \n";
    Text.RStripDropsWhitespace("g1 y2", " \n");
    assert FiveLines()[2] == "m3" + "\n";
    Text.RStripDropsWhitespace("m3", "\n");
    assert FiveLines()[3] == "g2" + "\t\n";
    Text.RStripDropsWhitespace("g2", "\t\n");
    assert FiveLines()[4] == "m2" + "\n";
    Text.RStripDropsWhitespace("m2", "\n");
  }

  /** A five-line program on three slots: the first page, then two lines and
      a blank, then an all-blank page, then back to the second page. */
  lemma ListingWalkthrough()
    ensures var v := Listing.ReadFile(Listing.Init(3), "p.ngc", Some(FiveLines())).0;
            && Listing.Render(v) == ["g0 x1", "g1 y2", "m3"]
            && Listing.Render(Listing.PageDown(v)) == ["g2", "m2", ""]
            && Listing.Render(Listing.PageDown(Listing.PageDown(v))) == ["", "", ""]
            && Listing.PageUp(Listing.PageDown(Listing.PageDown(v))) == Listing.PageDown(v)
  {
    FiveLinesStripped();
    var v := Listing.ReadFile(Listing.Init(3), "p.ngc", Some(FiveLines())).0;
    assert v.lineOffset == 0 && v.program == FiveLines();
  }
}

=== FILE: wrappers.dfy ===
/** Failure-carrying values for the two places where the widgets touch the
    file system: a read either yields its contents or fails, and an operation
    either completes or raises an I/O error to its caller. */
module Wrappers {

  /** The result of a read the model does not perform itself. */
  datatype Option<+T> = None | Some(value: T)

  /** The I/O errors the widgets let propagate, named after the Python
      exceptions: `OSError` from listing a directory, `IOError` from opening
      a file. */
  datatype IoError = OSError | IOError

  /** Whether an operation completed or raised. */
  datatype Outcome = Pass | Fail(error: IoError)
}
